=== FILE: README.md ===
# automate-enforcements: the configuration renderer in Dafny

`automate-enforcements` is a small Node.js command-line tool. It asks ten
yes/no, multiple-choice and numeric questions, then writes a set of
configuration files under `generated/`:

- VS Code `extensions.json` and `settings.json`;
- `.prettierrc` and `.prettierignore`;
- `.eslintrc`;
- two git hooks, `commit-msg` and `pre-push`.

This project models the tool's core in three parts.

- **The questions' visibility rules** (`Prompts`). The first five questions
  are always asked. Each of the last five has a `when` predicate over the
  earlier answers. In the answers record a skipped question's field is
  `None`.
  - `Collect` runs the questions in order.
  - `Visible` is the invariant every collected record satisfies.
  - `VisibleIsCollected` proves the converse: every record that satisfies
    `Visible` comes out of some run of the questions.
- **The renderer** (`Renderer`, with `Json` and `Templates`). From one
  answers record it computes the ordered list of files written. Each file
  has its path, its content and its executable bit.
  - JSON content is an ordered-key value. Objects keep insertion order, as
    the source's object literals do.
  - A member whose value is `undefined` is left out, as `JSON.stringify`
    does.
  - An `undefined` array element becomes `null`.
  - The three fixed texts (the ignore list and the two hook scripts) live in
    `Templates`.
  - Properties of the rendered list are in `RenderRules`.
- **The branch-name rule** enforced by the pre-push hook (`BranchPattern`).
  - The anchored POSIX extended regular expression
    `^[0-9]{4}\.[0-9]{2}\.[0-9]{2}-[A-Za-z0-9\-]+$` is written as data.
  - `Matches` gives that data its matching semantics.
  - `PatternMeaning` proves it equal to an independent flat description,
    `WellNamedBranch`.

`Render` has no precondition, because the source checks none. When Prettier
or ESLint is chosen but the indentation questions were skipped, the source
still reads `tabSize` and `indentationType`, which are then `undefined`. The
model does what the code does with those `undefined` values:

- the width keys are left out;
- `editor.insertSpaces` and `useTabs` are both `false`;
- the ESLint indent option is `"tab"`.

So `useTabs` is false both when spaces were chosen and when the question was
skipped, not only for spaces.

This is stated in `RenderRules.IndentationFallback`. Which records actually
reach the renderer is described by `Visible`, and the lemmas that depend on
it require it.

The character class `[A-Za-z0-9\-]` is read by POSIX bracket rules. A
backslash is an ordinary character inside brackets, and a `-` just before
`]` is literal. So the class holds the ASCII letters and digits, `-` and a
backslash. Ranges are read in the C locale, in code-point order. In a locale
whose ranges follow collation order, `[A-Za-z]` can also admit accented
letters; the model does not cover that.
`BranchPattern.BackslashAccepted` records that consequence. It cannot matter when
the hook runs, because git's ref-name rules forbid a backslash in a branch
name.

## Model

| member | source | states |
|---|---|---|
| Prompts.Collect | app.js:56-98 | Each skipped answer is absent and each asked answer is the response given. The indentation pair is asked iff custom formatting was chosen, line ending and final newline iff Prettier or ESLint, trailing whitespace iff not Prettier. The five unconditional answers are copied. |
| Prompts.VisibleIsCollected | app.js:56-98 | Every record obeying the visibility rules is produced by some run of the questions, so `Visible` describes exactly the records the renderer can receive. |
| BranchPattern.PatternMeaning | app.js:288 | The anchored pattern matches a string iff it is four digits, `.`, two digits, `.`, two digits, `-`, then one or more of ASCII letters, ASCII digits, `-` or backslash, and nothing more. |
| BranchPattern.Matches | app.js:288 | The matching semantics of the anchored pattern, with `BranchPattern.Pattern` the pattern written as data. No contract of its own; its meaning is stated by `PatternMeaning`, `DatedBranch`, `HookExampleAccepted`, `BackslashAccepted` and `RejectedExamples`. |
| BranchPattern.HookExampleAccepted | app.js:294 | The example the hook prints, `2025.05.22-Weng-Dockerfile`, is accepted. |
| BranchPattern.DatedBranch | app.js:288 | After any well-formed `YYYY.MM.DD-` prefix, a branch is accepted iff the description is non-empty and every character is a letter, digit, `-` or backslash. |
| BranchPattern.BackslashAccepted | app.js:288 | Under the POSIX reading of the bracket expression, a description containing a backslash is accepted. |
| BranchPattern.RejectedExamples | app.js:288 | `fix-bug`, `2025-05-22-fix-bug`, `2025.05.22-` and `2025.05.22-fix_bug` are rejected. |
| Prompts.EndOfLineValue | app.js:76-79 | The value stored for each line-ending choice: `lf`, `crlf`, `cr`, `auto`. No contract of its own; `PrettierAnswers` and `EslintRulesMeaning` carry it into the files. |
| Prompts.Visible | app.js:62-97 | The visibility rules as a predicate on answers records: a field is present iff its question's `when` holds. No contract of its own; `Collect` ensures it and `VisibleIsCollected` proves it describes exactly the collectable records. |
| Json.With | app.js:138-143 | Building an object member by member: a key with an `undefined` value is not added, and every other key keeps the value it had. |
| Json.GetDefined | app.js:153-156 | A key has a value in an object iff it is among the keys written out, so a key the lemmas call present is one that appears in the serialised file. |
| Json.WithKeys3 | app.js:138-143 | Building members with `undefined` values: each key is listed, in order, iff its value is defined, so an object's key order is its literal's order with the undefined members dropped. |
| Renderer.PathOf | app.js:129-298 | The seven output paths, relative to `generated/`: `.vscode/extensions.json` and `.vscode/settings.json` (lines 130, 154), `.prettierrc` (173), `.prettierignore` (225), `.eslintrc` (255), `.git/hooks/commit-msg` and `.git/hooks/pre-push` (280, 298). No contract of its own; `TargetOf` and `PathOfInjective` state that the paths are distinct. |
| Renderer.IsHook | app.js:280-299 | Which files are made executable (`chmod 755`): the two hooks. No contract of its own; `ExecutableIffHook` states it against the rendered list. |
| Renderer.ContentOf | app.js:116-296 | Each file's content: the JSON value built for it, or one of the fixed texts. No contract of its own; `ExtensionsWritten`, `SettingsWritten`, `PrettierConfigWritten`, `PrettierIgnoreWritten`, `EslintConfigWritten`, `CommitMsgHookFixed` and `PrePushHookFixed` state which content is written at which path. |
| Renderer.Build | app.js:129-299 | The artifact written for a file: its path, its content and its executable bit. No contract of its own; `RenderFind` and `RenderSource` state that the rendered list consists of these artifacts. |
| Renderer.Render | app.js:116-301 | The files written for one answers record, in write order. No contract of its own; its meaning is stated by `RenderFind`, `RenderHas`, `RenderSource`, `RenderOnlyKnownPaths`, `RenderDistinctPaths` and the `RenderRules` lemmas. |
| Renderer.Gate | app.js:117-285 | The condition under which each of the seven files is written. No contract of its own; `RenderHas` and the `*Gated` lemmas state it against the rendered list. |
| Renderer.ExtensionsJson | app.js:118-127 | extensions.json as a value: one `recommendations` array. No contract of its own; its entries are stated by `Recommendations` and its full content in the worked example by `PrettierOnlyExampleFiles`. |
| Renderer.Recommendations | app.js:117-127 | The Prettier extension is recommended iff Prettier is chosen and the ESLint extension iff ESLint is chosen. No other entry appears, none appears twice, and Prettier's comes first. |
| Renderer.SettingsJson | app.js:138-151 | settings.json as a value, always an object. Its members are stated by `SettingsEditor`, `SettingsFiles`, `SettingsFormatter`, its keys by `SettingsKeysClosed` and `SettingsKeyOrder`. |
| Renderer.SettingsEditor | app.js:138-141 | settings.json always turns on format-on-save. The tab width is the answer given and is absent when the question was skipped. `insertSpaces` is true iff spaces were chosen. |
| Renderer.SettingsFiles | app.js:142-147 | The final-newline and trailing-whitespace keys carry their answers and are absent when the question was skipped. |
| Renderer.SettingsFormatter | app.js:149-151 | Prettier is set as the default formatter, and the key is present iff Prettier is chosen. |
| Renderer.PrettierJson | app.js:162-170 | .prettierrc as a value, always an object. Its members are stated by `PrettierAnswers` and `PrettierStyle`, its keys by `PrettierKeysClosed` and `PrettierKeyOrder`. |
| Renderer.PrettierAnswers | app.js:163-165 | In .prettierrc the width and line ending are the answers given. `useTabs` is true iff tabs were chosen, whatever the width. |
| Renderer.PrettierStyle | app.js:166-169 | .prettierrc fixes `trailingComma` "es5", `semi` true, `singleQuote` true and `printWidth` 80, whatever the answers. |
| Renderer.IndentOption | app.js:247 | The ESLint indent option is the width when spaces were chosen, `"tab"` otherwise. It is `null` when spaces were chosen without a width. |
| Renderer.EslintJson | app.js:233-251 | .eslintrc as a value, always an object. Its members are stated by `EslintFixed` and `EslintRulesMeaning`, its key order by `EslintKeyOrder`, its absence of `null` by `EslintNullFree`. |
| Renderer.EslintRules | app.js:246-251 | The `rules` object of .eslintrc. No contract of its own; `EslintRulesMeaning` states each rule and `EslintKeyOrder` their order. |
| Renderer.EslintFixed | app.js:233-245 | .eslintrc has fixed `env`, `extends` and `parserOptions`. |
| Renderer.EslintRulesMeaning | app.js:246-251 | The indent rule follows the indentation answer, and linebreak-style carries the line-ending answer unchanged. The quote and semicolon rules are fixed. |
| Renderer.PathOfInjective | app.js:129-300 | The seven files are written at seven different paths. |
| Renderer.TargetOf | app.js:129-300 | Inverse of the file-to-path map: a path names a file iff it is that file's path. |
| Renderer.RenderFind | app.js:116-301 | Looking up a file's path in the rendered list gives that file's artifact iff the file's condition holds, and nothing otherwise. |
| Renderer.RenderHas | app.js:116-301 | A file is written iff its condition holds. |
| Renderer.RenderSource | app.js:116-301 | Every rendered artifact is the artifact of a file whose condition holds. |
| Renderer.RenderOnlyKnownPaths | app.js:116-301 | Nothing is written at a path other than the seven. |
| Renderer.RenderDistinctPaths | app.js:116-301 | No path is written twice. |
| Renderer.FindEmit | app.js:116-301 | For any distinct file order, lookup in the emitted list returns a file's artifact iff the file is listed and its condition holds. |
| Renderer.EmitDistinctPaths | app.js:116-301 | For any distinct file order, the emitted list has no repeated path. |
| Renderer.EmitCongruent | app.js:116-301 | The emitted list depends only on the conditions and on the artifacts of the files whose condition holds. |
| RenderRules.VsCodeFilesGated | app.js:116-158 | extensions.json and settings.json are written iff Prettier or ESLint is chosen. |
| RenderRules.PrettierFilesGated | app.js:160-229 | .prettierrc and .prettierignore are written iff Prettier is chosen. |
| RenderRules.EslintFileGated | app.js:231-259 | .eslintrc is written iff ESLint is chosen. |
| RenderRules.HooksGated | app.js:261-301 | commit-msg is written iff Conventional Commits are enforced, and pre-push iff branch naming is enforced. |
| RenderRules.OnlyHooksWithoutTools | app.js:116-259 | With neither Prettier nor ESLint, every written file is one of the two hooks: no `.vscode/` file, .prettierrc, .prettierignore or .eslintrc. |
| RenderRules.ExecutableIffHook | app.js:280-299 | A written file is executable (mode 755) iff it is one of the two hooks. |
| RenderRules.ExtensionsWritten | app.js:116-134 | With Prettier or ESLint chosen, `.vscode/extensions.json` is written, not executable, holding the recommendations object. |
| RenderRules.SettingsWritten | app.js:136-158 | With Prettier or ESLint chosen, `.vscode/settings.json` is written, not executable, holding the settings object. |
| RenderRules.PrettierConfigWritten | app.js:160-176 | With Prettier chosen, `.prettierrc` is written, not executable, holding the Prettier object. |
| RenderRules.PrettierIgnoreWritten | app.js:178-228 | With Prettier chosen, `.prettierignore` is written, not executable, holding the fixed ignore list. |
| RenderRules.EslintConfigWritten | app.js:231-259 | With ESLint chosen, `.eslintrc` is written, not executable, holding the ESLint object. |
| RenderRules.CommitMsgHookFixed | app.js:261-283 | When enforced, the commit-msg hook is the fixed script, executable, whatever the other answers. |
| RenderRules.PrePushHookFixed | app.js:285-301 | When enforced, the pre-push hook is the fixed script, executable, whatever the other answers. |
| RenderRules.ToolsOffIgnoresFormatting | app.js:116-301 | With neither Prettier nor ESLint, two records with the same hook answers render the same list, so no formatting answer is consulted. |
| RenderRules.TrimKeyWithoutPrettier | app.js:145-147 | For records obeying the visibility rules, settings.json has the trailing-whitespace key iff Prettier is off. The question is asked only without Prettier (line 90). |
| RenderRules.IndentationFallback | app.js:140-247 | If the indentation questions were skipped, both width keys are absent, `insertSpaces` and `useTabs` are false, and ESLint indents with `"tab"`. |
| RenderRules.EslintNullFree | app.js:247-248 | .eslintrc contains no `null` iff the width is present whenever spaces were chosen and the line ending is present. |
| RenderRules.VisibleEslintNullFree | app.js:62-98 | Every record the questions can produce with ESLint chosen yields a .eslintrc without `null`. |
| RenderRules.SettingsKeysClosed | app.js:138-151 | settings.json carries no key besides its six. |
| RenderRules.PrettierKeysClosed | app.js:162-170 | .prettierrc carries no key besides its seven. |
| RenderRules.SettingsKeyOrder | app.js:138-151 | For every record, settings.json lists format-on-save, the tab width if answered, insert-spaces, the final newline if answered, the trailing whitespace if answered, then the formatter if Prettier is chosen. |
| RenderRules.PrettierKeyOrder | app.js:162-170 | For every record, .prettierrc lists the tab width if answered, `useTabs`, the line ending if answered, then `trailingComma`, `semi`, `singleQuote`, `printWidth`. |
| RenderRules.EslintKeyOrder | app.js:233-251 | .eslintrc lists `env`, `extends`, `parserOptions`, `rules` in that order, and its rules as indent, linebreak-style, quotes, semi. |
| RenderRules.PrettierOnlyExampleFiles | app.js:116-134 | Worked example (Prettier only, spaces, width 4, LF, final newline): extensions.json is exactly `{"recommendations": ["esbenp.prettier-vscode"]}` and .eslintrc is not written. |
| RenderRules.PrettierOnlyExampleConfigs | app.js:136-229 | Worked example: settings.json, .prettierrc and .prettierignore are written with their rendered contents. |
| Templates.Text | app.js:179-296 | The three fixed texts: the ignore list (lines 179-222), the commit-msg hook (262-278) and the pre-push hook (286-296), transcribed with JavaScript escapes resolved. No contract of its own. |
| RenderRules.PrettierOnlyExampleContents | app.js:138-170 | Worked example: settings.json has width 4, spaces, final newline, Prettier as formatter and no trailing-whitespace key. .prettierrc has width 4, `useTabs` false and `"lf"`. |

## Left out

- Interactive prompting is not modelled. `Collect` takes the responses as a parameter and models only the skipping of questions. Prompt texts, choice labels and the prompt library's own validation are left out. The defaults appear only as the filler values in `VisibleIsCollected`.
- JavaScript numbers are not modelled. `tabSize` and `JNumber` hold unbounded integers, so these are not represented:
  - a fractional width such as 2.5, which `JSON.stringify` writes as `2.5`;
  - a width above 2^53, which is rounded;
  - `1e400`, which parses to `Infinity`, which `JSON.stringify` writes as `null`;
  - input the number prompt cannot parse. Depending on the prompt library's version this yields NaN (written as `null`) or the default 2. The prompt library is not part of this model.
- Clearing and creating `generated/`, creating `generated/.vscode/` and `generated/.git/hooks/` (always, even when no file is written in them), writing files, `chmod` and console logging are I/O and are not modelled. The output is the returned artifact list with an executable bit, in write order.
- `JSON.stringify(…, null, 2)` pretty-printing is not modelled byte for byte. JSON content is an abstract value with ordered keys.
- The commit-msg pattern is not given matching semantics. It begins with `(?i)`, which is not POSIX extended syntax, so its behaviour depends on the `grep` implementation. The hook is modelled only as fixed text.
- Executing the hooks is not modelled: `git symbolic-ref`, reading the message file, `echo` and exit codes. Only the branch-name language is stated.
  - A branch name containing a newline would reach `grep` as several lines, and `grep` matches line by line.
- `BranchPattern.Pattern` is parsed from `BranchPattern.Source` by hand. Regular-expression syntax is not parsed.
- `templates/commitMessageHook.js`, `templates/prettyignore.js` and `templates/prePushHook.js` are constant-string modules that `app.js` never imports. They are not part of this model. The texts written are the inline literals of `app.js`, kept in `Templates`.
- `Templates.Text` has no contract, and nothing is proved about the texts. They are constants transcribed from the template literals, with JavaScript escapes resolved. The pre-push text is built from `BranchPattern.Source` (`Templates.PrePushHook`), so it quotes that pattern by construction; that `Source` and `BranchPattern.Pattern` are the same expression rests on the hand parse noted above.
- Rendering the same answers twice gives the same files by construction, because `Render` is a function. No lemma states it.

=== FILE: branch_pattern.dfy ===
/**
 * The branch-name rule the pre-push hook enforces with `grep -Eq`, the
 * anchored POSIX extended regular expression
 *     ^[0-9]{4}\.[0-9]{2}\.[0-9]{2}-[A-Za-z0-9\-]+$
 *
 * The expression is written down as data (a sequence of character classes,
 * each with a repetition count) and given its matching semantics; the flat
 * predicate `WellNamedBranch` is an independent description of the same
 * language, and `PatternMeaning` proves the two agree.
 *
 * Reading of `[A-Za-z0-9\-]`: inside a POSIX bracket expression a backslash
 * is an ordinary character, and a `-` just before the closing `]` is literal.
 * The class therefore holds the ASCII letters and digits, `-`, AND a literal
 * backslash. Ranges are read in the C locale (code-point order).
 */
module BranchPattern {
  import opened Wrappers

  /** The pattern as it appears in the hook script. */
  const Source: string := "^[0-9]{4}\\.[0-9]{2}\\.[0-9]{2}-[A-Za-z0-9\\-]+$"

  /** One member of a bracket expression, or a single literal character. */
  datatype ClassItem = Single(c: char) | Range(lo: char, hi: char)

  /** A bracket expression: the union of its items. */
  type CharClass = seq<ClassItem>

  /** `{n}` is Repeat(n, Some(n)); `+` is Repeat(1, None). */
  datatype Repeat = Repeat(min: nat, max: Option<nat>)

  /** A character class under a repetition count. */
  datatype Piece = Piece(cls: CharClass, rep: Repeat)

  predicate ItemMatches(item: ClassItem, c: char) {
    match item
    case Single(x) => c == x
    case Range(lo, hi) => lo <= c <= hi
  }

  predicate InClass(cls: CharClass, c: char) {
    exists item :: item in cls && ItemMatches(item, c)
  }

  predicate AllIn(cls: CharClass, s: string) {
    forall i :: 0 <= i < |s| ==> InClass(cls, s[i])
  }

  /** `n` characters fit the repetition count. */
  predicate CountFits(rep: Repeat, n: nat) {
    rep.min <= n && (rep.max.None? || n <= rep.max.value)
  }

  /**
   * The whole of `s` is matched by the pieces in order (the pattern is anchored
   * at both ends by `^` and `$`).
   */
  predicate Matches(ps: seq<Piece>, s: string)
    decreases |ps|
  {
    if ps == [] then s == []
    else exists k | 0 <= k <= |s| ::
      CountFits(ps[0].rep, k) && AllIn(ps[0].cls, s[..k]) && Matches(ps[1..], s[k..])
  }

  const Digit: CharClass := [Range('0', '9')]
  const BranchNameClass: CharClass := [Range('A', 'Z'), Range('a', 'z'), Range('0', '9'), Single('\\'), Single('-')]

  function Exactly(n: nat): Repeat {
    Repeat(n, Some(n))
  }

  /** The pieces of `Source`: `[0-9]{2}`, `\.`, `-` and `[A-Za-z0-9\-]+`. */
  const DatePart: Piece := Piece(Digit, Exactly(2))
  const Dot: Piece := Piece([Single('.')], Exactly(1))
  const Hyphen: Piece := Piece([Single('-')], Exactly(1))
  const DescriptionPart: Piece := Piece(BranchNameClass, Repeat(1, None))

  /** `Source`, piece by piece. */
  const Pattern: seq<Piece> :=
    [Piece(Digit, Exactly(4)), Dot, DatePart, Dot, DatePart, Hyphen, DescriptionPart]

  predicate IsDigit(c: char) {
    '0' <= c <= '9'
  }

  predicate IsBranchNameChar(c: char) {
    'A' <= c <= 'Z' || 'a' <= c <= 'z' || IsDigit(c) || c == '\\' || c == '-'
  }

  /** `YYYY.MM.DD-`: the date digits and separators that open a branch name. */
  predicate DatePrefix(p: string) {
    && |p| == 11
    && IsDigit(p[0]) && IsDigit(p[1]) && IsDigit(p[2]) && IsDigit(p[3])
    && p[4] == '.'
    && IsDigit(p[5]) && IsDigit(p[6])
    && p[7] == '.'
    && IsDigit(p[8]) && IsDigit(p[9])
    && p[10] == '-'
  }

  /** The description: at least one name character and nothing else. */
  predicate Description(t: string) {
    1 <= |t| && forall i :: 0 <= i < |t| ==> IsBranchNameChar(t[i])
  }

  /** YYYY.MM.DD-description: a date prefix, then a description. */
  predicate WellNamedBranch(s: string) {
    |s| >= 11 && DatePrefix(s[..11]) && Description(s[11..])
  }

  lemma DigitClass(c: char)
    ensures InClass(Digit, c) <==> IsDigit(c)
  {
    if IsDigit(c) {
      assert Digit[0] in Digit;
    }
  }

  lemma BranchNameClassMeaning(c: char)
    ensures InClass(BranchNameClass, c) <==> IsBranchNameChar(c)
  {
    if 'A' <= c <= 'Z' {
      assert ItemMatches(BranchNameClass[0], c);
    } else if 'a' <= c <= 'z' {
      assert ItemMatches(BranchNameClass[1], c);
    } else if IsDigit(c) {
      assert ItemMatches(BranchNameClass[2], c);
    } else if c == '\\' {
      assert ItemMatches(BranchNameClass[3], c);
    } else if c == '-' {
      assert ItemMatches(BranchNameClass[4], c);
    }
  }

  /** A piece with a fixed count consumes exactly that many characters. */
  lemma MatchesExactly(ps: seq<Piece>, n: nat, s: string)
    requires ps != [] && ps[0].rep == Exactly(n)
    ensures Matches(ps, s) <==> n <= |s| && AllIn(ps[0].cls, s[..n]) && Matches(ps[1..], s[n..])
  {
  }

  /** A final `+` piece consumes the whole rest of the input. */
  lemma MatchesLastPlus(p: Piece, s: string)
    requires p.rep == Repeat(1, None)
    ensures Matches([p], s) <==> 1 <= |s| && AllIn(p.cls, s)
  {
    assert [p][0] == p && [p][1..] == [];
    if Matches([p], s) {
      var k :| 0 <= k <= |s| && CountFits(p.rep, k) && AllIn(p.cls, s[..k]) && Matches([p][1..], s[k..]);
      assert |s[k..]| == 0;
      assert s[..k] == s;
    }
    if 1 <= |s| && AllIn(p.cls, s) {
      assert s[..|s|] == s;
      assert s[|s|..] == [];
      assert CountFits(p.rep, |s|) && AllIn(p.cls, s[..|s|]) && Matches([p][1..], s[|s|..]);
    }
  }

  lemma AllDigits(t: string)
    ensures AllIn(Digit, t) <==> forall i :: 0 <= i < |t| ==> IsDigit(t[i])
  {
    forall i | 0 <= i < |t| {
      DigitClass(t[i]);
    }
  }

  /** A leading fixed run of digits. */
  lemma {:induction false} DigitsStep(ps: seq<Piece>, n: nat, t: string)
    requires ps != [] && ps[0] == Piece(Digit, Exactly(n))
    ensures Matches(ps, t) <==>
      n <= |t| && (forall i :: 0 <= i < n ==> IsDigit(t[i])) && Matches(ps[1..], t[n..])
  {
    MatchesExactly(ps, n, t);
    if n <= |t| {
      AllDigits(t[..n]);
    }
  }

  /** A leading literal character. */
  lemma {:induction false} LiteralStep(ps: seq<Piece>, c: char, t: string)
    requires ps != [] && ps[0] == Piece([Single(c)], Exactly(1))
    ensures Matches(ps, t) <==> 1 <= |t| && t[0] == c && Matches(ps[1..], t[1..])
  {
    MatchesExactly(ps, 1, t);
    if 1 <= |t| && t[0] == c {
      assert ItemMatches([Single(c)][0], t[..1][0]);
    }
  }

  lemma AllBranchNameChars(t: string)
    ensures AllIn(BranchNameClass, t) <==> forall i :: 0 <= i < |t| ==> IsBranchNameChar(t[i])
  {
    forall i | 0 <= i < |t| {
      BranchNameClassMeaning(t[i]);
    }
  }

  lemma MatchesDescription(ps: seq<Piece>, t: string)
    requires ps == [DescriptionPart]
    ensures Matches(ps, t) <==> Description(t)
  {
    MatchesLastPlus(DescriptionPart, t);
    AllBranchNameChars(t);
  }

  /** The separator and description: `-[A-Za-z0-9\-]+$`. */
  lemma MatchesSuffix(ps: seq<Piece>, t: string)
    requires |ps| == 2 && ps[0] == Hyphen && ps[1] == DescriptionPart
    ensures Matches(ps, t) <==> 1 <= |t| && t[0] == '-' && Description(t[1..])
  {
    LiteralStep(ps, '-', t);
    if 1 <= |t| {
      MatchesDescription(ps[1..], t[1..]);
    }
  }

  /** The day and what follows it: `[0-9]{2}-...`. */
  lemma MatchesDay(ps: seq<Piece>, t: string)
    requires |ps| == 3 && ps[0] == DatePart && ps[1] == Hyphen && ps[2] == DescriptionPart
    ensures Matches(ps, t) <==>
      3 <= |t| && IsDigit(t[0]) && IsDigit(t[1]) && t[2] == '-' && Description(t[3..])
  {
    DigitsStep(ps, 2, t);
    if 2 <= |t| {
      MatchesSuffix(ps[1..], t[2..]);
      if 3 <= |t| {
        assert t[2..][1..] == t[3..];
      }
    }
  }

  /** The month and what follows it: `[0-9]{2}\.[0-9]{2}-...`. */
  lemma MatchesMonth(ps: seq<Piece>, t: string)
    requires |ps| == 5 && ps[0] == DatePart && ps[1] == Dot && ps[2] == DatePart
    requires ps[3] == Hyphen && ps[4] == DescriptionPart
    ensures Matches(ps, t) <==>
      && 6 <= |t| && IsDigit(t[0]) && IsDigit(t[1]) && t[2] == '.'
      && IsDigit(t[3]) && IsDigit(t[4]) && t[5] == '-' && Description(t[6..])
  {
    DigitsStep(ps, 2, t);
    if 2 <= |t| {
      LiteralStep(ps[1..], '.', t[2..]);
      assert ps[1..][1..] == ps[2..];
      if 3 <= |t| {
        assert t[2..][1..] == t[3..];
        MatchesDay(ps[2..], t[3..]);
        if 6 <= |t| {
          assert t[3..][3..] == t[6..];
        }
      }
    }
  }

  /** Everything after the year: `\.[0-9]{2}\.[0-9]{2}-...`. */
  lemma MatchesAfterYear(ps: seq<Piece>, t: string)
    requires |ps| == 6 && ps[0] == Dot && ps[1] == DatePart && ps[2] == Dot
    requires ps[3] == DatePart && ps[4] == Hyphen && ps[5] == DescriptionPart
    ensures Matches(ps, t) <==>
      && 7 <= |t| && t[0] == '.' && IsDigit(t[1]) && IsDigit(t[2]) && t[3] == '.'
      && IsDigit(t[4]) && IsDigit(t[5]) && t[6] == '-' && Description(t[7..])
  {
    LiteralStep(ps, '.', t);
    if 1 <= |t| {
      MatchesMonth(ps[1..], t[1..]);
      if 7 <= |t| {
        assert t[1..][6..] == t[7..];
      }
    }
  }

  /** The pattern, as grep reads it, accepts exactly the well-named branches. */
  lemma PatternMeaning(s: string)
    ensures Matches(Pattern, s) <==> WellNamedBranch(s)
  {
    DigitsStep(Pattern, 4, s);
    if 4 <= |s| {
      MatchesAfterYear(Pattern[1..], s[4..]);
      if 11 <= |s| {
        assert s[4..][7..] == s[11..];
      }
    }
  }

  /**
   * After any well-formed date prefix, the branch is accepted exactly when
   * the description is non-empty and made of name characters only.
   */
  lemma {:induction false} DatedBranch(date: string, d: string)
    requires DatePrefix(date)
    ensures Matches(Pattern, date + d) <==> Description(d)
  {
    var s := date + d;
    PatternMeaning(s);
    assert s[..11] == date;
    assert s[11..] == d;
  }

  /** The example the hook prints, `2025.05.22-Weng-Dockerfile`, is accepted. */
  lemma HookExampleAccepted()
    ensures Matches(Pattern, "2025.05.22-Weng-Dockerfile")
  {
    assert DatePrefix("2025.05.22-");
    assert Description("Weng-Dockerfile");
    DatedBranch("2025.05.22-", "Weng-Dockerfile");
    assert "2025.05.22-" + "Weng-Dockerfile" == "2025.05.22-Weng-Dockerfile";
  }

  /** Under the POSIX reading a backslash in the description is accepted. */
  lemma BackslashAccepted()
    ensures Matches(Pattern, "2025.05.22-a\\b")
  {
    assert DatePrefix("2025.05.22-");
    assert Description("a\\b");
    DatedBranch("2025.05.22-", "a\\b");
    assert "2025.05.22-" + "a\\b" == "2025.05.22-a\\b";
  }

  /** A missing date, dashes in place of dots, an empty description and an underscore are each rejected. */
  lemma RejectedExamples()
    ensures !Matches(Pattern, "fix-bug")
    ensures !Matches(Pattern, "2025-05-22-fix-bug")
    ensures !Matches(Pattern, "2025.05.22-")
    ensures !Matches(Pattern, "2025.05.22-fix_bug")
  {
    PatternMeaning("fix-bug");
    PatternMeaning("2025-05-22-fix-bug");
    PatternMeaning("2025.05.22-");
    PatternMeaning("2025.05.22-fix_bug");
    assert "2025.05.22-fix_bug"[14] == '_';
  }
}

=== FILE: json.dfy ===
/**
 * JSON values as the renderer builds them, before serialisation.
 *
 * Objects keep their members in insertion order, as JavaScript object literals
 * do; the members form a list, first member first. A member whose value would
 * be `undefined` is never stored: `JSON.stringify` leaves such members out, so
 * `With` drops them when the object is built. An `undefined` array element is
 * written by `JSON.stringify` as `null`, which is what `Element` does.
 */
module Json {
  import opened Wrappers

  datatype JValue =
    | JNull
    | JBool(b: bool)
    | JNumber(n: int)
    | JString(s: string)
    | JArray(items: seq<JValue>)
    | JObject(members: Members)

  /** The members of an object, in insertion order. */
  datatype Members = NoMembers | Member(key: string, value: JValue, rest: Members)

  /** The keys of an object's members, in order. */
  function Keys(ms: Members): seq<string> {
    match ms
    case NoMembers => []
    case Member(k, _, rest) => [k] + Keys(rest)
  }

  /** The value of the first member named `key`, if any. */
  function Get(ms: Members, key: string): Option<JValue> {
    match ms
    case NoMembers => None
    case Member(k, v, rest) => if k == key then Some(v) else Get(rest, key)
  }

  /**
   * The members `rest` preceded by `key: value`, where a `value` that is
   * `undefined` (None) leaves the member out. Objects are built from the back,
   * one `With` per member of the source's object literal.
   */
  function With(key: string, value: Option<JValue>, rest: Members): (ms: Members)
    ensures forall k :: Get(ms, k) == if value.Some? && k == key then value else Get(rest, k)
  {
    match value
    case Some(v) => Member(key, v, rest)
    case None => rest
  }

  /** `With` adds its key to the front of the key list exactly when the value is defined. */
  lemma WithKeys(key: string, value: Option<JValue>, rest: Members)
    ensures Keys(With(key, value, rest)) == (if value.Some? then [key] else []) + Keys(rest)
  {
    if value.None? {
      assert [] + Keys(rest) == Keys(rest);
    }
  }

  /** Three members built with `With`: each key is listed exactly when its value is defined. */
  lemma WithKeys3(k1: string, v1: Option<JValue>, k2: string, v2: Option<JValue>,
                  k3: string, v3: Option<JValue>, rest: Members)
    ensures Keys(With(k1, v1, With(k2, v2, With(k3, v3, rest)))) ==
      (if v1.Some? then [k1] else []) + (if v2.Some? then [k2] else [])
      + (if v3.Some? then [k3] else []) + Keys(rest)
  {
    WithKeys(k3, v3, rest);
    WithKeys(k2, v2, With(k3, v3, rest));
    WithKeys(k1, v1, With(k2, v2, With(k3, v3, rest)));
  }

  /** An array element whose value may be `undefined` (None). */
  function Element(value: Option<JValue>): JValue {
    value.GetOr(JNull)
  }

  /** A key has a value exactly when it is one of the keys. */
  lemma {:induction false} GetDefined(ms: Members, key: string)
    ensures Get(ms, key).Some? <==> key in Keys(ms)
  {
    match ms
    case NoMembers =>
    case Member(k, v, rest) => GetDefined(rest, key);
  }

  /** The value reached from `v` by following object keys, if every step exists. */
  function Lookup(v: JValue, path: seq<string>): Option<JValue>
    decreases |path|
  {
    if path == [] then Some(v)
    else if !v.JObject? then None
    else match Get(v.members, path[0])
      case None => None
      case Some(child) => Lookup(child, path[1..])
  }

  /** True when `key` is a member of object `v`. */
  predicate HasKey(v: JValue, key: string) {
    v.JObject? && Get(v.members, key).Some?
  }

  /** No `null` anywhere inside `v`: no `undefined` slipped into an array. */
  predicate NullFree(v: JValue) {
    match v
    case JNull => false
    case JArray(items) => forall i :: 0 <= i < |items| ==> NullFree(items[i])
    case JObject(ms) => MembersNullFree(ms)
    case _ => true
  }

  predicate MembersNullFree(ms: Members) {
    match ms
    case NoMembers => true
    case Member(_, v, rest) => NullFree(v) && MembersNullFree(rest)
  }
}

=== FILE: prompts.dfy ===
/**
 * The ten questions the tool asks and the record of answers they produce.
 *
 * The first five questions are always asked. Each of the last five carries a
 * visibility predicate over the answers given so far; when it is false the
 * question is skipped and its answer is absent from the record (None).
 */
module Prompts {
  import opened Wrappers

  /** The choices of the indentation question. */
  datatype Indentation = Spaces | Tabs

  /** The choices of the line-ending question. */
  datatype EndOfLine = Lf | Crlf | Cr | Auto

  /** The value the line-ending choice stores in the answers. */
  function EndOfLineValue(e: EndOfLine): string {
    match e
    case Lf => "lf"
    case Crlf => "crlf"
    case Cr => "cr"
    case Auto => "auto"
  }

  /** The answers record, one field per question, in question order. */
  datatype Answers = Answers(
    useConventionalCommits: bool,
    enforceBranchNaming: bool,
    useCustomVSCodeFormatting: bool,
    usePrettier: bool,
    useESLint: bool,
    indentationType: Option<Indentation>,
    tabSize: Option<int>,
    endOfLine: Option<EndOfLine>,
    trimTrailingWhitespace: Option<bool>,
    insertFinalNewline: Option<bool>)

  /** Visibility of the indentation-type and tab-size questions. */
  predicate AsksIndentation(a: Answers) {
    a.useCustomVSCodeFormatting
  }

  /** Visibility of the line-ending and final-newline questions. */
  predicate AsksEditorFormat(a: Answers) {
    a.usePrettier || a.useESLint
  }

  /** Visibility of the trailing-whitespace question: Prettier always trims. */
  predicate AsksTrimTrailingWhitespace(a: Answers) {
    !a.usePrettier
  }

  /** An answers record the question list can produce: a field is present exactly when its question was asked. */
  predicate Visible(a: Answers) {
    && (a.indentationType.Some? <==> AsksIndentation(a))
    && (a.tabSize.Some? <==> AsksIndentation(a))
    && (a.endOfLine.Some? <==> AsksEditorFormat(a))
    && (a.trimTrailingWhitespace.Some? <==> AsksTrimTrailingWhitespace(a))
    && (a.insertFinalNewline.Some? <==> AsksEditorFormat(a))
  }

  /** What the user would answer to every question, were each one asked. */
  datatype Responses = Responses(
    useConventionalCommits: bool,
    enforceBranchNaming: bool,
    useCustomVSCodeFormatting: bool,
    usePrettier: bool,
    useESLint: bool,
    indentationType: Indentation,
    tabSize: int,
    endOfLine: EndOfLine,
    trimTrailingWhitespace: bool,
    insertFinalNewline: bool)

  /** The answer to a question that is asked only when `asked` holds. */
  function Ask<T>(asked: bool, response: T): Option<T> {
    if asked then Some(response) else None
  }

  /**
   * Runs the questions in order. Each visibility predicate reads only the five
   * unconditional answers, which are collected before it is evaluated.
   */
  function Collect(r: Responses): (a: Answers)
    ensures Visible(a)
    ensures a.useConventionalCommits == r.useConventionalCommits
    ensures a.enforceBranchNaming == r.enforceBranchNaming
    ensures a.useCustomVSCodeFormatting == r.useCustomVSCodeFormatting
    ensures a.usePrettier == r.usePrettier
    ensures a.useESLint == r.useESLint
    ensures a.indentationType.Some? ==> a.indentationType.value == r.indentationType
    ensures a.tabSize.Some? ==> a.tabSize.value == r.tabSize
    ensures a.endOfLine.Some? ==> a.endOfLine.value == r.endOfLine
    ensures a.trimTrailingWhitespace.Some? ==> a.trimTrailingWhitespace.value == r.trimTrailingWhitespace
    ensures a.insertFinalNewline.Some? ==> a.insertFinalNewline.value == r.insertFinalNewline
  {
    var fixed := Answers(r.useConventionalCommits, r.enforceBranchNaming, r.useCustomVSCodeFormatting,
                         r.usePrettier, r.useESLint, None, None, None, None, None);
    fixed.(
      indentationType := Ask(AsksIndentation(fixed), r.indentationType),
      tabSize := Ask(AsksIndentation(fixed), r.tabSize),
      endOfLine := Ask(AsksEditorFormat(fixed), r.endOfLine),
      trimTrailingWhitespace := Ask(AsksTrimTrailingWhitespace(fixed), r.trimTrailingWhitespace),
      insertFinalNewline := Ask(AsksEditorFormat(fixed), r.insertFinalNewline))
  }

  /**
   * Every record that satisfies the visibility rules comes out of some run of
   * the questions: the skipped answers are filled with the questions' defaults.
   */
  lemma VisibleIsCollected(a: Answers)
    requires Visible(a)
    ensures exists r :: Collect(r) == a
  {
    var r := Responses(a.useConventionalCommits, a.enforceBranchNaming, a.useCustomVSCodeFormatting,
                       a.usePrettier, a.useESLint,
                       a.indentationType.GetOr(Spaces), a.tabSize.GetOr(2), a.endOfLine.GetOr(Lf),
                       a.trimTrailingWhitespace.GetOr(true), a.insertFinalNewline.GetOr(true));
    assert Collect(r) == a;
  }
}

=== FILE: renderer.dfy ===
/**
 * The configuration renderer: from a finished answers record to the list of
 * files the tool writes under its output directory (`generated/`), each with
 * its content and whether it is made executable (mode 755).
 *
 * Every file is gated by a condition over the answers; the JSON files are
 * built from the answers exactly as the source's object literals are, with
 * absent answers following JavaScript: a member whose value is `undefined` is
 * left out by `JSON.stringify`, and a comparison with an absent answer is
 * false.
 */
module Renderer {
  import opened Wrappers
  import opened Json
  import opened Prompts
  import Templates

  /**
   * A JSON document (pretty-printed when written) or one of the fixed texts,
   * written as `Templates.Text(template)`.
   */
  datatype Content = JsonText(value: JValue) | FixedText(template: Templates.Template)

  /** One written file: its path below the output directory, its content, its executable bit. */
  datatype Artifact = Artifact(path: string, content: Content, executable: bool)

  /** The files the renderer knows, in the order it writes them. */
  datatype Target =
    | Extensions
    | Settings
    | PrettierConfig
    | PrettierIgnore
    | EslintConfig
    | CommitMsgHook
    | PrePushHook

  const WriteOrder: seq<Target> :=
    [Extensions, Settings, PrettierConfig, PrettierIgnore, EslintConfig, CommitMsgHook, PrePushHook]

  function PathOf(t: Target): string {
    match t
    case Extensions => ".vscode/extensions.json"
    case Settings => ".vscode/settings.json"
    case PrettierConfig => ".prettierrc"
    case PrettierIgnore => ".prettierignore"
    case EslintConfig => ".eslintrc"
    case CommitMsgHook => ".git/hooks/commit-msg"
    case PrePushHook => ".git/hooks/pre-push"
  }

  /** Different files have different paths. */
  lemma PathOfInjective(t: Target, u: Target)
    ensures PathOf(t) == PathOf(u) ==> t == u
  {
    if t != u {
      assert |PathOf(t)| != |PathOf(u)| || PathOf(t)[1] != PathOf(u)[1];
    }
  }

  /** The file a path names, if it is one of the renderer's: the inverse of `PathOf`. */
  function TargetOf(path: string): (t: Option<Target>)
    ensures t.Some? ==> PathOf(t.value) == path
    ensures t.None? ==> forall u :: PathOf(u) != path
  {
    if path == PathOf(Extensions) then Some(Extensions)
    else if path == PathOf(Settings) then Some(Settings)
    else if path == PathOf(PrettierConfig) then Some(PrettierConfig)
    else if path == PathOf(PrettierIgnore) then Some(PrettierIgnore)
    else if path == PathOf(EslintConfig) then Some(EslintConfig)
    else if path == PathOf(CommitMsgHook) then Some(CommitMsgHook)
    else if path == PathOf(PrePushHook) then Some(PrePushHook)
    else None
  }

  /** The hooks are the files written with mode 755. */
  predicate IsHook(t: Target) {
    t == CommitMsgHook || t == PrePushHook
  }

  // ---------------------------------------------------------------------------
  // .vscode/extensions.json (app.js:117-134)

  const PrettierExtension: string := "esbenp.prettier-vscode"
  const EslintExtension: string := "dbaeumer.vscode-eslint"

  /** The recommended editor extensions: Prettier's first, each only when its tool is chosen. */
  function Recommendations(a: Answers): (r: seq<JValue>)
    ensures JString(PrettierExtension) in r <==> a.usePrettier
    ensures JString(EslintExtension) in r <==> a.useESLint
    ensures forall i :: 0 <= i < |r| ==> r[i] == JString(PrettierExtension) || r[i] == JString(EslintExtension)
    ensures forall i, j :: 0 <= i < j < |r| ==> r[i] != r[j]
    ensures a.usePrettier ==> r[0] == JString(PrettierExtension)
  {
    (if a.usePrettier then [JString(PrettierExtension)] else [])
    + (if a.useESLint then [JString(EslintExtension)] else [])
  }

  function ExtensionsJson(a: Answers): JValue {
    JObject(Member("recommendations", JArray(Recommendations(a)), NoMembers))
  }

  // ---------------------------------------------------------------------------
  // .vscode/settings.json (app.js:137-158)

  function NumberOf(n: Option<int>): Option<JValue> {
    match n
    case Some(x) => Some(JNumber(x))
    case None => None
  }

  function BoolOf(b: Option<bool>): Option<JValue> {
    match b
    case Some(x) => Some(JBool(x))
    case None => None
  }

  function EndOfLineOf(e: Option<EndOfLine>): Option<JValue> {
    match e
    case Some(x) => Some(JString(EndOfLineValue(x)))
    case None => None
  }

  /** The keys settings.json may carry (see `SettingsKeysClosed`). */
  const SettingsKeys: set<string> := {
    "editor.formatOnSave", "editor.tabWidth", "editor.insertSpaces",
    "files.insertFinalNewline", "files.trimTrailingWhitespace", "editor.defaultFormatter"
  }

  /**
   * settings.json, in the order the source's object literal and the two
   * later assignments give.
   */
  function SettingsJson(a: Answers): (v: JValue)
    ensures v.JObject?
  {
    JObject(
      With("editor.formatOnSave", Some(JBool(true)),
      With("editor.tabWidth", NumberOf(a.tabSize),
      With("editor.insertSpaces", Some(JBool(a.indentationType == Some(Spaces))),
      With("files.insertFinalNewline", BoolOf(a.insertFinalNewline),
      With("files.trimTrailingWhitespace", BoolOf(a.trimTrailingWhitespace),
      With("editor.defaultFormatter", if a.usePrettier then Some(JString(PrettierExtension)) else None,
      NoMembers)))))))
  }

  /**
   * Formatting on save is always on; the tab width is the answer given, if
   * any; spaces are inserted only when the user chose them.
   */
  lemma SettingsEditor(a: Answers)
    ensures Get(SettingsJson(a).members, "editor.formatOnSave") == Some(JBool(true))
    ensures Get(SettingsJson(a).members, "editor.tabWidth") == NumberOf(a.tabSize)
    ensures Get(SettingsJson(a).members, "editor.insertSpaces") == Some(JBool(a.indentationType == Some(Spaces)))
  {
  }

  /** The two whitespace keys carry their answers, and are absent when the question was not asked. */
  lemma SettingsFiles(a: Answers)
    ensures Get(SettingsJson(a).members, "files.insertFinalNewline") == BoolOf(a.insertFinalNewline)
    ensures Get(SettingsJson(a).members, "files.trimTrailingWhitespace") == BoolOf(a.trimTrailingWhitespace)
  {
  }

  /** Prettier becomes the default formatter exactly when it is chosen. */
  lemma SettingsFormatter(a: Answers)
    ensures HasKey(SettingsJson(a), "editor.defaultFormatter") <==> a.usePrettier
    ensures a.usePrettier ==> Get(SettingsJson(a).members, "editor.defaultFormatter") == Some(JString(PrettierExtension))
  {
  }

  // ---------------------------------------------------------------------------
  // .prettierrc (app.js:161-176)

  const PrettierKeys: set<string> :=
    {"tabWidth", "useTabs", "endOfLine", "trailingComma", "semi", "singleQuote", "printWidth"}

  /** .prettierrc, in the order of the source's object literal. */
  function PrettierJson(a: Answers): (v: JValue)
    ensures v.JObject?
  {
    JObject(
      With("tabWidth", NumberOf(a.tabSize),
      With("useTabs", Some(JBool(a.indentationType == Some(Tabs))),
      With("endOfLine", EndOfLineOf(a.endOfLine),
      With("trailingComma", Some(JString("es5")),
      With("semi", Some(JBool(true)),
      With("singleQuote", Some(JBool(true)),
      With("printWidth", Some(JNumber(80)),
      NoMembers))))))))
  }

  /**
   * The width and line ending are the answers given, if any; tabs are used
   * exactly when the user chose them.
   */
  lemma PrettierAnswers(a: Answers)
    ensures Get(PrettierJson(a).members, "tabWidth") == NumberOf(a.tabSize)
    ensures Get(PrettierJson(a).members, "useTabs") == Some(JBool(a.indentationType == Some(Tabs)))
    ensures Get(PrettierJson(a).members, "endOfLine") == EndOfLineOf(a.endOfLine)
  {
  }

  /** The style options the tool fixes, whatever the answers. */
  lemma PrettierStyle(a: Answers)
    ensures Get(PrettierJson(a).members, "trailingComma") == Some(JString("es5"))
    ensures Get(PrettierJson(a).members, "semi") == Some(JBool(true))
    ensures Get(PrettierJson(a).members, "singleQuote") == Some(JBool(true))
    ensures Get(PrettierJson(a).members, "printWidth") == Some(JNumber(80))
  {
  }

  // ---------------------------------------------------------------------------
  // .eslintrc (app.js:232-259)

  /** The second element of the `indent` rule: the width with spaces, "tab" otherwise. */
  function IndentOption(a: Answers): (o: JValue)
    ensures a.indentationType == Some(Spaces) && a.tabSize.Some? ==> o == JNumber(a.tabSize.value)
    ensures a.indentationType != Some(Spaces) ==> o == JString("tab")
    ensures a.indentationType == Some(Spaces) && a.tabSize.None? ==> o == JNull
  {
    if a.indentationType == Some(Spaces) then Element(NumberOf(a.tabSize)) else JString("tab")
  }

  function Rule(level: string, option: JValue): JValue {
    JArray([JString(level), option])
  }

  const EslintEnv: JValue :=
    JObject(Member("browser", JBool(true), Member("es2021", JBool(true), Member("node", JBool(true), NoMembers))))

  const EslintParserOptions: JValue :=
    JObject(Member("ecmaVersion", JString("latest"), Member("sourceType", JString("module"), NoMembers)))

  /** The `rules` object: the two rules that follow the answers, then the two fixed ones. */
  function EslintRules(a: Answers): JValue {
    JObject(
      With("indent", Some(Rule("error", IndentOption(a))),
      With("linebreak-style", Some(Rule("error", Element(EndOfLineOf(a.endOfLine)))),
      With("quotes", Some(Rule("error", JString("single"))),
      With("semi", Some(Rule("error", JString("always"))),
      NoMembers)))))
  }

  /** .eslintrc, in the order of the source's object literal. */
  function EslintJson(a: Answers): (v: JValue)
    ensures v.JObject?
  {
    JObject(
      With("env", Some(EslintEnv),
      With("extends", Some(JArray([JString("eslint:recommended")])),
      With("parserOptions", Some(EslintParserOptions),
      With("rules", Some(EslintRules(a)),
      NoMembers)))))
  }

  /** The environment, the base configuration and the parser options are fixed. */
  lemma EslintFixed(a: Answers)
    ensures Lookup(EslintJson(a), ["env"]) == Some(EslintEnv)
    ensures Lookup(EslintJson(a), ["extends"]) == Some(JArray([JString("eslint:recommended")]))
    ensures Lookup(EslintJson(a), ["parserOptions"]) == Some(EslintParserOptions)
  {
  }

  /**
   * The indent rule follows the indentation answer and the line-break rule
   * carries the line-ending answer unchanged; the quote and semicolon rules
   * are fixed.
   */
  lemma EslintRulesMeaning(a: Answers)
    ensures Lookup(EslintJson(a), ["rules", "indent"]) == Some(Rule("error", IndentOption(a)))
    ensures Lookup(EslintJson(a), ["rules", "linebreak-style"]) == Some(Rule("error", Element(EndOfLineOf(a.endOfLine))))
    ensures Lookup(EslintJson(a), ["rules", "quotes"]) == Some(Rule("error", JString("single")))
    ensures Lookup(EslintJson(a), ["rules", "semi"]) == Some(Rule("error", JString("always")))
  {
  }

  // ---------------------------------------------------------------------------
  // The file table and the rendered list (app.js:116-301)

  /** The condition under which each file is written. */
  predicate Gate(a: Answers, t: Target) {
    match t
    case Extensions => a.usePrettier || a.useESLint
    case Settings => a.usePrettier || a.useESLint
    case PrettierConfig => a.usePrettier
    case PrettierIgnore => a.usePrettier
    case EslintConfig => a.useESLint
    case CommitMsgHook => a.useConventionalCommits
    case PrePushHook => a.enforceBranchNaming
  }

  function ContentOf(a: Answers, t: Target): Content {
    match t
    case Extensions => JsonText(ExtensionsJson(a))
    case Settings => JsonText(SettingsJson(a))
    case PrettierConfig => JsonText(PrettierJson(a))
    case PrettierIgnore => FixedText(Templates.IgnoreList)
    case EslintConfig => JsonText(EslintJson(a))
    case CommitMsgHook => FixedText(Templates.CommitMsgScript)
    case PrePushHook => FixedText(Templates.PrePushScript)
  }

  function Build(a: Answers, t: Target): Artifact {
    Artifact(PathOf(t), ContentOf(a, t), IsHook(t))
  }

  /** The files among `ts` whose condition holds, in order. */
  function Emit(ts: seq<Target>, gate: Target -> bool, build: Target -> Artifact): (arts: seq<Artifact>)
    ensures |arts| <= |ts|
  {
    if ts == [] then []
    else (if gate(ts[0]) then [build(ts[0])] else []) + Emit(ts[1..], gate, build)
  }

  /** Everything written for one answers record, in write order. */
  function Render(a: Answers): seq<Artifact> {
    Emit(WriteOrder, t => Gate(a, t), t => Build(a, t))
  }

  /** The first artifact written at `path`, if any. */
  function Find(arts: seq<Artifact>, path: string): (r: Option<Artifact>)
    ensures r.Some? ==> r.value in arts && r.value.path == path
    ensures r.None? ==> forall i :: 0 <= i < |arts| ==> arts[i].path != path
  {
    if arts == [] then None
    else if arts[0].path == path then Some(arts[0])
    else Find(arts[1..], path)
  }

  /** Distinct elements, as in `WriteOrder`. */
  predicate Distinct(ts: seq<Target>) {
    forall i, j :: 0 <= i < j < |ts| ==> ts[i] != ts[j]
  }

  /** No two artifacts share a path. */
  predicate DistinctPaths(arts: seq<Artifact>) {
    forall i, j :: 0 <= i < j < |arts| ==> arts[i].path != arts[j].path
  }

  /** Every artifact `Emit` writes was built from a file of `ts` whose condition holds. */
  lemma {:induction false} EmitSource(ts: seq<Target>, gate: Target -> bool, build: Target -> Artifact, i: nat)
    returns (t: Target)
    requires i < |Emit(ts, gate, build)|
    ensures t in ts && gate(t) && Emit(ts, gate, build)[i] == build(t)
    decreases |ts|
  {
    var rest := Emit(ts[1..], gate, build);
    if gate(ts[0]) && i == 0 {
      t := ts[0];
    } else {
      var j := if gate(ts[0]) then i - 1 else i;
      assert Emit(ts, gate, build)[i] == rest[j];
      t := EmitSource(ts[1..], gate, build, j);
    }
  }

  /** `Emit` depends only on the conditions, and on the artifacts of the files whose condition holds. */
  lemma {:induction false} EmitCongruent(ts: seq<Target>, gate: Target -> bool, build: Target -> Artifact,
                                         gate': Target -> bool, build': Target -> Artifact)
    requires forall t :: t in ts ==> gate(t) == gate'(t)
    requires forall t :: t in ts && gate(t) ==> build(t) == build'(t)
    ensures Emit(ts, gate, build) == Emit(ts, gate', build')
    decreases |ts|
  {
    if ts != [] {
      assert ts[0] in ts;
      assert forall t :: t in ts[1..] ==> t in ts;
      EmitCongruent(ts[1..], gate, build, gate', build');
    }
  }

  /** Looking a file up in what `Emit` wrote gives the file exactly when its condition holds. */
  lemma {:induction false} FindEmit(ts: seq<Target>, gate: Target -> bool, build: Target -> Artifact, t: Target)
    requires forall u :: build(u).path == PathOf(u)
    requires Distinct(ts)
    ensures Find(Emit(ts, gate, build), PathOf(t)) == if t in ts && gate(t) then Some(build(t)) else None
    decreases |ts|
  {
    if ts != [] {
      var h := ts[0];
      var rest := Emit(ts[1..], gate, build);
      FindEmit(ts[1..], gate, build, t);
      assert t in ts <==> t == h || t in ts[1..];
      assert h == t ==> t !in ts[1..];
      if gate(h) {
        var arts := [build(h)] + rest;
        assert Emit(ts, gate, build) == arts;
        assert arts[0] == build(h) && arts[1..] == rest;
        PathOfInjective(h, t);
      } else {
        assert Emit(ts, gate, build) == rest;
      }
    }
  }

  /** `Emit` writes nothing at a path that no file has. */
  lemma {:induction false} EmitUnknownPath(ts: seq<Target>, gate: Target -> bool, build: Target -> Artifact, path: string)
    requires forall u :: build(u).path == PathOf(u)
    requires forall u :: PathOf(u) != path
    ensures Find(Emit(ts, gate, build), path).None?
    decreases |ts|
  {
    if ts != [] {
      var rest := Emit(ts[1..], gate, build);
      EmitUnknownPath(ts[1..], gate, build, path);
      if gate(ts[0]) {
        var arts := [build(ts[0])] + rest;
        assert Emit(ts, gate, build) == arts;
        assert arts[0].path != path && arts[1..] == rest;
      } else {
        assert Emit(ts, gate, build) == rest;
      }
    }
  }

  /** No path is written twice. */
  lemma {:induction false} EmitDistinctPaths(ts: seq<Target>, gate: Target -> bool, build: Target -> Artifact)
    requires forall u :: build(u).path == PathOf(u)
    requires Distinct(ts)
    ensures DistinctPaths(Emit(ts, gate, build))
    decreases |ts|
  {
    if ts != [] {
      var rest := Emit(ts[1..], gate, build);
      EmitDistinctPaths(ts[1..], gate, build);
      if gate(ts[0]) {
        var arts := [build(ts[0])] + rest;
        assert Emit(ts, gate, build) == arts;
        forall j | 0 < j < |arts|
          ensures arts[0].path != arts[j].path
        {
          assert arts[j] == rest[j - 1];
          var u := EmitSource(ts[1..], gate, build, j - 1);
          PathOfInjective(ts[0], u);
        }
        forall i, j | 0 < i < j < |arts|
          ensures arts[i].path != arts[j].path
        {
          assert arts[i] == rest[i - 1] && arts[j] == rest[j - 1];
          assert rest[i - 1].path != rest[j - 1].path;
        }
      } else {
        assert Emit(ts, gate, build) == rest;
      }
    }
  }

  lemma WriteOrderDistinct()
    ensures Distinct(WriteOrder)
  {
  }

  /**
   * The rendered list read as a table: each file is present exactly when its
   * condition holds, with its content and mode.
   */
  lemma RenderFind(a: Answers, t: Target)
    ensures Find(Render(a), PathOf(t)) == if Gate(a, t) then Some(Build(a, t)) else None
  {
    WriteOrderDistinct();
    assert t in WriteOrder by {
      match t
      case Extensions => assert WriteOrder[0] == t;
      case Settings => assert WriteOrder[1] == t;
      case PrettierConfig => assert WriteOrder[2] == t;
      case PrettierIgnore => assert WriteOrder[3] == t;
      case EslintConfig => assert WriteOrder[4] == t;
      case CommitMsgHook => assert WriteOrder[5] == t;
      case PrePushHook => assert WriteOrder[6] == t;
    }
    FindEmit(WriteOrder, t => Gate(a, t), t => Build(a, t), t);
  }

  /** A file is written exactly when its condition holds. */
  lemma RenderHas(a: Answers, t: Target)
    ensures Find(Render(a), PathOf(t)).Some? <==> Gate(a, t)
  {
    RenderFind(a, t);
  }

  /** Every rendered artifact is the artifact of a file whose condition holds. */
  lemma RenderSource(a: Answers, i: nat) returns (t: Target)
    requires i < |Render(a)|
    ensures Gate(a, t) && Render(a)[i] == Build(a, t)
  {
    t := EmitSource(WriteOrder, t => Gate(a, t), t => Build(a, t), i);
  }

  /** Nothing is written at a path that is not one of the renderer's files. */
  lemma RenderOnlyKnownPaths(a: Answers, path: string)
    requires TargetOf(path).None?
    ensures Find(Render(a), path).None?
  {
    EmitUnknownPath(WriteOrder, t => Gate(a, t), t => Build(a, t), path);
  }

  /** No path is written twice. */
  lemma RenderDistinctPaths(a: Answers)
    ensures DistinctPaths(Render(a))
  {
    WriteOrderDistinct();
    EmitDistinctPaths(WriteOrder, t => Gate(a, t), t => Build(a, t));
  }
}

=== FILE: rules.dfy ===
/**
 * The gating and content rules of the renderer, stated over `Render` and the
 * JSON builders, and the consequences of the question-visibility rules for
 * what the files carry.
 */
module RenderRules {
  import opened Wrappers
  import opened Json
  import opened Prompts
  import opened Renderer
  import Templates

  /** The artifact written at the path of `t`, if any. */
  function Written(a: Answers, t: Target): Option<Artifact> {
    Find(Render(a), PathOf(t))
  }

  /** The two VS Code files appear exactly when Prettier or ESLint is chosen. */
  lemma VsCodeFilesGated(a: Answers)
    ensures Written(a, Extensions).Some? <==> a.usePrettier || a.useESLint
    ensures Written(a, Settings).Some? <==> a.usePrettier || a.useESLint
  {
    RenderHas(a, Extensions);
    RenderHas(a, Settings);
  }

  /** .prettierrc and .prettierignore appear exactly when Prettier is chosen. */
  lemma PrettierFilesGated(a: Answers)
    ensures Written(a, PrettierConfig).Some? <==> a.usePrettier
    ensures Written(a, PrettierIgnore).Some? <==> a.usePrettier
  {
    RenderHas(a, PrettierConfig);
    RenderHas(a, PrettierIgnore);
  }

  /** .eslintrc appears exactly when ESLint is chosen. */
  lemma EslintFileGated(a: Answers)
    ensures Written(a, EslintConfig).Some? <==> a.useESLint
  {
    RenderHas(a, EslintConfig);
  }

  /** Each hook appears exactly when its own git question was answered yes. */
  lemma HooksGated(a: Answers)
    ensures Written(a, CommitMsgHook).Some? <==> a.useConventionalCommits
    ensures Written(a, PrePushHook).Some? <==> a.enforceBranchNaming
  {
    RenderHas(a, CommitMsgHook);
    RenderHas(a, PrePushHook);
  }

  /** With neither Prettier nor ESLint chosen, only the git hooks can be written. */
  lemma OnlyHooksWithoutTools(a: Answers)
    requires !a.usePrettier && !a.useESLint
    ensures forall i :: 0 <= i < |Render(a)| ==>
      Render(a)[i].path == PathOf(CommitMsgHook) || Render(a)[i].path == PathOf(PrePushHook)
  {
    forall i | 0 <= i < |Render(a)|
      ensures Render(a)[i].path == PathOf(CommitMsgHook) || Render(a)[i].path == PathOf(PrePushHook)
    {
      var t := RenderSource(a, i);
    }
  }

  /** A written file is executable exactly when it is one of the two git hooks. */
  lemma ExecutableIffHook(a: Answers)
    ensures forall i :: 0 <= i < |Render(a)| ==>
      (Render(a)[i].executable <==>
        Render(a)[i].path == PathOf(CommitMsgHook) || Render(a)[i].path == PathOf(PrePushHook))
  {
    forall i | 0 <= i < |Render(a)|
      ensures Render(a)[i].executable <==>
        Render(a)[i].path == PathOf(CommitMsgHook) || Render(a)[i].path == PathOf(PrePushHook)
    {
      var t := RenderSource(a, i);
      PathOfInjective(t, CommitMsgHook);
      PathOfInjective(t, PrePushHook);
    }
  }

  /** The commit-msg hook is a fixed text, written executable, whatever the other answers. */
  lemma CommitMsgHookFixed(a: Answers)
    requires a.useConventionalCommits
    ensures Written(a, CommitMsgHook) == Some(Artifact(PathOf(CommitMsgHook), FixedText(Templates.CommitMsgScript), true))
  {
    RenderFind(a, CommitMsgHook);
    assert Build(a, CommitMsgHook) == Artifact(PathOf(CommitMsgHook), FixedText(Templates.CommitMsgScript), true);
  }

  /** extensions.json is written at its path, not executable, holding the recommendations object. */
  lemma ExtensionsWritten(a: Answers)
    requires a.usePrettier || a.useESLint
    ensures Written(a, Extensions) == Some(Artifact(".vscode/extensions.json", JsonText(ExtensionsJson(a)), false))
  {
    RenderFind(a, Extensions);
  }

  /** settings.json is written at its path, not executable, holding the settings object. */
  lemma SettingsWritten(a: Answers)
    requires a.usePrettier || a.useESLint
    ensures Written(a, Settings) == Some(Artifact(".vscode/settings.json", JsonText(SettingsJson(a)), false))
  {
    RenderFind(a, Settings);
  }

  /** .prettierrc is written at its path, not executable, holding the Prettier object. */
  lemma PrettierConfigWritten(a: Answers)
    requires a.usePrettier
    ensures Written(a, PrettierConfig) == Some(Artifact(".prettierrc", JsonText(PrettierJson(a)), false))
  {
    RenderFind(a, PrettierConfig);
  }

  /** .prettierignore is written at its path, not executable, holding the fixed ignore list. */
  lemma PrettierIgnoreWritten(a: Answers)
    requires a.usePrettier
    ensures Written(a, PrettierIgnore) == Some(Artifact(".prettierignore", FixedText(Templates.IgnoreList), false))
  {
    RenderFind(a, PrettierIgnore);
  }

  /** .eslintrc is written at its path, not executable, holding the ESLint object. */
  lemma EslintConfigWritten(a: Answers)
    requires a.useESLint
    ensures Written(a, EslintConfig) == Some(Artifact(".eslintrc", JsonText(EslintJson(a)), false))
  {
    RenderFind(a, EslintConfig);
  }

  /** The pre-push hook is a fixed text, written executable, whatever the other answers. */
  lemma PrePushHookFixed(a: Answers)
    requires a.enforceBranchNaming
    ensures Written(a, PrePushHook) == Some(Artifact(PathOf(PrePushHook), FixedText(Templates.PrePushScript), true))
  {
    RenderFind(a, PrePushHook);
    assert Build(a, PrePushHook) == Artifact(PathOf(PrePushHook), FixedText(Templates.PrePushScript), true);
  }

  /**
   * With neither Prettier nor ESLint chosen, the written files depend on the
   * two hook answers alone: none of the formatting answers is consulted.
   */
  lemma ToolsOffIgnoresFormatting(a: Answers, b: Answers)
    requires !a.usePrettier && !a.useESLint && !b.usePrettier && !b.useESLint
    requires a.useConventionalCommits == b.useConventionalCommits
    requires a.enforceBranchNaming == b.enforceBranchNaming
    ensures Render(a) == Render(b)
  {
    EmitCongruent(WriteOrder, t => Gate(a, t), t => Build(a, t), t => Gate(b, t), t => Build(b, t));
  }

  /** Under the visibility rules, settings.json carries the trailing-whitespace key exactly when Prettier is off. */
  lemma TrimKeyWithoutPrettier(a: Answers)
    requires Visible(a)
    ensures HasKey(SettingsJson(a), "files.trimTrailingWhitespace") <==> !a.usePrettier
  {
    SettingsFiles(a);
  }

  /**
   * When the indentation questions were skipped, the width keys are left out,
   * spaces and tabs are both off, and ESLint indents with tabs.
   */
  lemma IndentationFallback(a: Answers)
    requires Visible(a) && !a.useCustomVSCodeFormatting
    ensures !HasKey(SettingsJson(a), "editor.tabWidth")
    ensures Get(SettingsJson(a).members, "editor.insertSpaces") == Some(JBool(false))
    ensures !HasKey(PrettierJson(a), "tabWidth")
    ensures Get(PrettierJson(a).members, "useTabs") == Some(JBool(false))
    ensures Lookup(EslintJson(a), ["rules", "indent"]) == Some(Rule("error", JString("tab")))
  {
    SettingsEditor(a);
    PrettierAnswers(a);
    EslintRulesMeaning(a);
  }

  /**
   * .eslintrc holds no `null` exactly when the answers it reads are present:
   * the width when spaces were chosen, and the line ending.
   */
  lemma EslintNullFree(a: Answers)
    ensures NullFree(EslintJson(a)) <==>
      (a.indentationType == Some(Spaces) ==> a.tabSize.Some?) && a.endOfLine.Some?
  {
    EslintRulesNullFree(a);
    var base := JArray([JString("eslint:recommended")]);
    EslintFixedNullFree();
    var ms := Member("env", EslintEnv, Member("extends", base,
      Member("parserOptions", EslintParserOptions, Member("rules", EslintRules(a), NoMembers))));
    assert EslintJson(a) == JObject(ms);
    assert MembersNullFree(ms.rest.rest.rest) <==> NullFree(EslintRules(a));
    assert MembersNullFree(ms.rest) <==> NullFree(EslintRules(a));
  }

  /** The fixed parts of .eslintrc hold no `null`. */
  lemma EslintFixedNullFree()
    ensures NullFree(EslintEnv) && NullFree(EslintParserOptions)
    ensures NullFree(JArray([JString("eslint:recommended")]))
  {
    var base := JArray([JString("eslint:recommended")]);
    assert base.items[0] == JString("eslint:recommended");
  }

  /** The rules object holds no `null` exactly when the indent and line-break options hold none. */
  lemma EslintRulesNullFree(a: Answers)
    ensures NullFree(EslintRules(a)) <==>
      (a.indentationType == Some(Spaces) ==> a.tabSize.Some?) && a.endOfLine.Some?
  {
    var indent := Rule("error", IndentOption(a));
    var linebreak := Rule("error", Element(EndOfLineOf(a.endOfLine)));
    RuleNullFree("error", IndentOption(a));
    RuleNullFree("error", Element(EndOfLineOf(a.endOfLine)));
    RuleNullFree("error", JString("single"));
    RuleNullFree("error", JString("always"));
    assert NullFree(IndentOption(a)) <==> (a.indentationType == Some(Spaces) ==> a.tabSize.Some?);
    assert NullFree(Element(EndOfLineOf(a.endOfLine))) <==> a.endOfLine.Some?;
    var semi := Member("semi", Rule("error", JString("always")), NoMembers);
    var quotes := Member("quotes", Rule("error", JString("single")), semi);
    var lines := Member("linebreak-style", linebreak, quotes);
    assert EslintRules(a) == JObject(Member("indent", indent, lines));
    assert MembersNullFree(quotes);
    assert MembersNullFree(lines) <==> NullFree(linebreak);
  }

  /** A rule holds no `null` exactly when its option holds none. */
  lemma RuleNullFree(level: string, option: JValue)
    ensures NullFree(Rule(level, option)) <==> NullFree(option)
  {
    var items := Rule(level, option).items;
    assert items[0] == JString(level) && items[1] == option;
  }

  /** So every record the questions can produce with ESLint chosen yields a null-free .eslintrc. */
  lemma VisibleEslintNullFree(a: Answers)
    requires Visible(a) && a.useESLint
    ensures NullFree(EslintJson(a))
  {
    EslintNullFree(a);
  }

  /** settings.json carries no key beyond the six the source names. */
  lemma SettingsKeysClosed(a: Answers, k: string)
    requires k !in SettingsKeys
    ensures Get(SettingsJson(a).members, k).None?
  {
  }

  /** .prettierrc carries no key beyond the seven the source names. */
  lemma PrettierKeysClosed(a: Answers, k: string)
    requires k !in PrettierKeys
    ensures Get(PrettierJson(a).members, k).None?
  {
  }

  /**
   * settings.json lists its keys in the order of the source's object literal:
   * format-on-save, the tab width if answered, insert-spaces, the final
   * newline if answered, then the trailing-whitespace key if that question was
   * answered and the formatter if Prettier is chosen.
   */
  lemma SettingsKeyOrder(a: Answers)
    ensures Keys(SettingsJson(a).members) ==
      ["editor.formatOnSave"]
      + (if a.tabSize.Some? then ["editor.tabWidth"] else [])
      + ["editor.insertSpaces"]
      + (if a.insertFinalNewline.Some? then ["files.insertFinalNewline"] else [])
      + (if a.trimTrailingWhitespace.Some? then ["files.trimTrailingWhitespace"] else [])
      + (if a.usePrettier then ["editor.defaultFormatter"] else [])
  {
    var formatter := if a.usePrettier then Some(JString(PrettierExtension)) else None;
    var tail := With("files.insertFinalNewline", BoolOf(a.insertFinalNewline),
      With("files.trimTrailingWhitespace", BoolOf(a.trimTrailingWhitespace),
      With("editor.defaultFormatter", formatter, NoMembers)));
    WithKeys3("files.insertFinalNewline", BoolOf(a.insertFinalNewline),
      "files.trimTrailingWhitespace", BoolOf(a.trimTrailingWhitespace),
      "editor.defaultFormatter", formatter, NoMembers);
    WithKeys3("editor.formatOnSave", Some(JBool(true)),
      "editor.tabWidth", NumberOf(a.tabSize),
      "editor.insertSpaces", Some(JBool(a.indentationType == Some(Spaces))), tail);
  }

  /**
   * .prettierrc lists its keys in the order of the source's object literal;
   * the width and the line ending appear only when answered.
   */
  lemma PrettierKeyOrder(a: Answers)
    ensures Keys(PrettierJson(a).members) ==
      (if a.tabSize.Some? then ["tabWidth"] else [])
      + ["useTabs"]
      + (if a.endOfLine.Some? then ["endOfLine"] else [])
      + ["trailingComma", "semi", "singleQuote", "printWidth"]
  {
    var style := Member("trailingComma", JString("es5"), Member("semi", JBool(true),
      Member("singleQuote", JBool(true), Member("printWidth", JNumber(80), NoMembers))));
    assert Keys(style) == ["trailingComma", "semi", "singleQuote", "printWidth"];
    WithKeys3("tabWidth", NumberOf(a.tabSize),
      "useTabs", Some(JBool(a.indentationType == Some(Tabs))),
      "endOfLine", EndOfLineOf(a.endOfLine), style);
  }

  /** .eslintrc lists its four top-level keys, and its four rules, in the source's order. */
  lemma EslintKeyOrder(a: Answers)
    ensures Keys(EslintJson(a).members) == ["env", "extends", "parserOptions", "rules"]
    ensures Keys(EslintRules(a).members) == ["indent", "linebreak-style", "quotes", "semi"]
  {
  }

  /** The answers of the worked example: Prettier alone, spaces of width 4, LF line endings, a final newline. */
  predicate PrettierOnlyExample(a: Answers) {
    && Visible(a)
    && a.usePrettier && !a.useESLint && a.useCustomVSCodeFormatting
    && a.indentationType == Some(Spaces) && a.tabSize == Some(4)
    && a.endOfLine == Some(Lf) && a.insertFinalNewline == Some(true)
  }

  /** In the worked example one extension is recommended and no .eslintrc is written. */
  lemma PrettierOnlyExampleFiles(a: Answers)
    requires PrettierOnlyExample(a)
    ensures Written(a, Extensions) == Some(Artifact(PathOf(Extensions),
      JsonText(JObject(Member("recommendations", JArray([JString("esbenp.prettier-vscode")]), NoMembers))), false))
    ensures Written(a, EslintConfig).None?
  {
    RenderFind(a, Extensions);
    RenderFind(a, EslintConfig);
    assert Recommendations(a) == [JString(PrettierExtension)];
  }

  /** In the worked example settings.json, .prettierrc and .prettierignore are all written. */
  lemma PrettierOnlyExampleConfigs(a: Answers)
    requires PrettierOnlyExample(a)
    ensures Written(a, Settings) == Some(Build(a, Settings))
    ensures Written(a, PrettierConfig) == Some(Build(a, PrettierConfig))
    ensures Written(a, PrettierIgnore) == Some(Build(a, PrettierIgnore))
  {
    RenderFind(a, Settings);
    RenderFind(a, PrettierConfig);
    RenderFind(a, PrettierIgnore);
  }

  /**
   * In the worked example settings.json carries width 4, spaces, the final newline
   * and Prettier as formatter and no trailing-whitespace key; .prettierrc
   * carries width 4, no tabs and LF line endings.
   */
  lemma PrettierOnlyExampleContents(a: Answers)
    requires PrettierOnlyExample(a)
    ensures Get(SettingsJson(a).members, "editor.tabWidth") == Some(JNumber(4))
    ensures Get(SettingsJson(a).members, "editor.insertSpaces") == Some(JBool(true))
    ensures Get(SettingsJson(a).members, "files.insertFinalNewline") == Some(JBool(true))
    ensures Get(SettingsJson(a).members, "editor.defaultFormatter") == Some(JString("esbenp.prettier-vscode"))
    ensures !HasKey(SettingsJson(a), "files.trimTrailingWhitespace")
    ensures Get(PrettierJson(a).members, "tabWidth") == Some(JNumber(4))
    ensures Get(PrettierJson(a).members, "useTabs") == Some(JBool(false))
    ensures Get(PrettierJson(a).members, "endOfLine") == Some(JString("lf"))
  {
    SettingsEditor(a);
    SettingsFiles(a);
    SettingsFormatter(a);
    PrettierAnswers(a);
  }
}

=== FILE: templates.dfy ===
/**
 * The fixed texts the renderer writes: the Prettier ignore list and the two
 * git hook scripts. None of them depends on any answer.
 */
module Templates {
  import BranchPattern

  /** The three fixed texts, by name. */
  datatype Template = IgnoreList | CommitMsgScript | PrePushScript

  /** The text of a template. */
  function Text(t: Template): string {
    match t
    case IgnoreList => PrettierIgnore
    case CommitMsgScript => CommitMsgHook
    case PrePushScript => PrePushHook
  }

  /** The `.prettierignore` list (app.js:179-222). */
  const PrettierIgnore: string :=
    "# Dependencies\n" +
    "node_modules/\n" +
    ".pnp/\n" +
    ".pnp.js\n" +
    "\n" +
    "# Build outputs\n" +
    "dist/\n" +
    "build/\n" +
    "out/\n" +
    ".next/\n" +
    "\n" +
    "# Cache\n" +
    ".cache/\n" +
    ".npm/\n" +
    ".eslintcache\n" +
    "\n" +
    "# Logs\n" +
    "logs/\n" +
    "*.log\n" +
    "npm-debug.log*\n" +
    "yarn-debug.log*\n" +
    "yarn-error.log*\n" +
    "\n" +
    "# Environment variables\n" +
    ".env\n" +
    ".env.local\n" +
    ".env.development.local\n" +
    ".env.test.local\n" +
    ".env.production.local\n" +
    "\n" +
    "# IDE\n" +
    ".idea/\n" +
    ".vscode/\n" +
    "*.swp\n" +
    "*.swo\n" +
    "\n" +
    "# OS\n" +
    ".DS_Store\n" +
    "Thumbs.db\n" +
    "\n" +
    "# Generated files\n" +
    "generated/\n" +
    "coverage/\n"

  /**
   * The commit-msg hook (app.js:262-278). Its pattern starts with `(?i)`, which
   * is not POSIX extended syntax, so what `grep -E` makes of it is left open;
   * the text is kept verbatim. In the echoed copy of the pattern the template
   * literal drops the backslashes before `(`, `)` and `-`.
   */
  const CommitMsgHook: string :=
    "#!/bin/sh\n" +
    "\n" +
    "# Regex for Conventional Commit (e.g., feat: message, fix: message)\n" +
    "commit_regex=\"(?i)^(feat|fix|docs|style|refactor|test|chore)(\\([a-z0-9\\-]+\\))?: .+\"\n" +
    "\n" +
    "commit_msg=$(cat \"$1\")\n" +
    "\n" +
    "if ! echo \"$commit_msg\" | grep -Eq \"$commit_regex\"; then\n" +
    "  echo \"\U{26D4}\U{FE0F} Commit message must follow Conventional Commits format:\"\n" +
    "  echo \"'''\"\n" +
    "  echo \"(?i)^(feat|fix|docs|style|refactor|test|chore)(([a-z0-9-]+))?: .+\"\n" +
    "  echo \"'''\"\n" +
    "  echo \"\"\n" +
    "  echo \"Example: feat: add login button\"\n" +
    "  echo \"Example: feat(auth): add login button\"\n" +
    "  exit 1\n" +
    "fi"

  /** The pre-push hook (app.js:286-296): its `pattern` line holds `BranchPattern.Source`. */
  const PrePushHook: string := PrePushHead + BranchPattern.Source + PrePushTail

  /** The pre-push hook up to the opening quote of the pattern. */
  const PrePushHead: string :=
    "#!/bin/sh\n" +
    "branch_name=$(git symbolic-ref --short HEAD)\n" +
    "pattern='"

  /** The pre-push hook from the closing quote of the pattern on. */
  const PrePushTail: string :=
    "'\n" +
    "\n" +
    "if ! echo \"$branch_name\" | grep -Eq \"$pattern\"; then\n" +
    "  echo \"\U{26D4}\U{FE0F} Branch name '$branch_name' is invalid.\"\n" +
    "  echo \"Format must be: YYYY.MM.DD-description-with-hyphens\"\n" +
    "  echo \"\"\n" +
    "  echo \"Example: 2025.05.22-Weng-Dockerfile\"\n" +
    "  exit 1\n" +
    "fi"
}

=== FILE: wrappers.dfy ===
/** The optional-value datatype used for answers a question may never have been asked. */
module Wrappers {

  /** `None` stands for a JavaScript property that is absent (reads as `undefined`). */
  datatype Option<+T> = None | Some(value: T) {

    /** Returns the encapsulated value, or `default` when there is none. */
    function GetOr(default: T): T {
      match this
      case Some(v) => v
      case None => default
    }
  }
}
